=== FILE: README.md ===
# Flappy Dragon game core in Dafny

A model of the game logic of `State` in the Flappy Dragon terminal game
(`flappy_Game-main/src/main.rs`): the constrained obstacle generator, `restart`,
the play tick with pass detection and obstacle replacement, the hit and floor
rules, the Menu / Playing / End mode machine with its keyboard and mouse
dispatch, and the fixed button layouts with their hit test.

Everything is a pure function over immutable datatypes:

- `options.dfy` (`Options`): the `Option` type.
- `layout.dfy` (`Layout`): `Button`, `Action`, the half-open hit test, the menu and
  end-screen layouts, hover marking and the first-match click lookup.
- `generator.dfy` (`Generator`): `Obstacle`, the gap size `max(5, 20 - score)`, the
  half-open draw range clamped to ±33 rows around the previous centre, and
  `Spawn`, the three-obstacle loop of `restart`.
- `game.dfy` (`Game`): `State`, `Input`, `Effect`, `RestartGame`, `HandleButtonClick`,
  the menu/end-screen tick (`ScreenTick`, one definition for `main_menu` and
  `dead`, which differ only in the buttons they create), `PlayTick` and `Tick`.
- `properties.dfy` (`GameProperties`): the reachable-state invariant and the
  lemmas relating several steps.

Inputs stand in for what the game logic cannot see. `Input.moved` is where
`gravity_and_move` puts the player, `Input.hit` is whether any `hit_obstacle`
test fired, and `clickDraws`, `keyDraws` and `passDraw` are the values
`RandomNumberGenerator::range(lo, hi)` returns. Each draw is required to satisfy
`lo <= r < hi`. A restart consumes three draws. A menu or end tick can restart
twice, once for a button click and once for key P in the same tick, so it
carries two sets. Sound, music and quit requests are returned as a list of
`Effect`s. Sounds are gated by the audio flag, as `play_sound` does.

Two behaviours of the code that the model keeps as written:

- The code has no fallback when the clamped range is empty (`random.range`
  would be called on an empty range). The model proves the range is never empty
  from any history the generator can produce (`DrawRangeNeverEmpty`,
  `PassDrawAlwaysPossible`).
- In `play`, a tick that both hits an obstacle and passes one still adds the
  point, because the pass branch does not check the mode the hit branch has
  just set to End. So a tick that ends the game keeps the score only when
  nothing was passed (`PlayingEndsIff`).

One quirk of the code is also proved (`MenuButtonsSurviveIntoPlay`). Clicking
Play and pressing M or B on the menu in the same tick rebuilds the MENU buttons
after `restart` cleared them. `dead` only creates its buttons when the list is
empty, so that game's end screen keeps the menu buttons.

## Model

| member | source | states |
|---|---|---|
| Layout.NewButton | flappy_Game-main/src/main.rs:34-44 | a new button has the given geometry, text and action and is not hovered |
| Layout.ContainsIffPainted | flappy_Game-main/src/main.rs:74-76 | a point is inside a button exactly when it is one of the cells the button paints (columns x..x+w-1, rows y..y+h-1) |
| Layout.MenuButtonsDisjoint | flappy_Game-main/src/main.rs:179-185 | the four menu buttons (rows 15, 20, 25, 30, each 20x3) share no point |
| Layout.EndButtonsDisjoint | flappy_Game-main/src/main.rs:188-194 | the four end-screen buttons (rows 20, 25, 30, 35) share no point |
| Layout.LabelsTrackFlags | flappy_Game-main/src/main.rs:183-193 | on both layouts each Audio/Music label reads ON exactly when its flag is set and OFF exactly when it is not |
| Layout.Hover | flappy_Game-main/src/main.rs:228-231 | hover marks exactly the buttons under the pointer and changes nothing else |
| Layout.FirstContaining | flappy_Game-main/src/main.rs:233-241 | the chosen button is under the pointer and no earlier one is; nothing is chosen exactly when no button is under the pointer |
| Layout.DisjointClickIsUnique | flappy_Game-main/src/main.rs:234-240 | on a layout without overlaps, a click picks button i exactly when the point lies in button i |
| Layout.MenuClickTargets | flappy_Game-main/src/main.rs:179-185 | a menu click hits a button exactly in columns 30..49 of the four row bands; Play in rows 15..17, Quit in rows 20..22 |
| Layout.EndClickTargets | flappy_Game-main/src/main.rs:188-194 | an end-screen click hits a button exactly in the four row bands; Play Again in rows 20..22, Quit in rows 25..27 |
| Generator.GapSize | flappy_Game-main/src/main.rs:158 | the gap size is the maximum of 5 and 20 - score: at least both, equal to one, within [5, 20] |
| Generator.GapSizeMonotone | flappy_Game-main/src/main.rs:158 | the gap never grows with the score, is 5 from score 15 on, and is 5 at score 20 |
| Generator.Generate | flappy_Game-main/src/main.rs:156-176 | the obstacle has the requested column, the score's size and the drawn centre; the centre keeps the edge margin for its size and lies in [last-33, last+33) of a previous centre; the history becomes that centre |
| Generator.DrawRangeExact | flappy_Game-main/src/main.rs:159-171 | a draw is accepted exactly when it is a valid centre for the size and, with a history, lies in [last-33, last+33) |
| Generator.DrawRangeNonEmptyIff | flappy_Game-main/src/main.rs:163-168 | the clamped range is non-empty exactly when the previous centre is within 33 rows of the unclamped bounds |
| Generator.DrawRangeNeverEmpty | flappy_Game-main/src/main.rs:163-168 | from no history or any centre the generator produced (rows 4..45), the range always contains rows 12..36, so no fallback is needed |
| Generator.StartChainUnclamped | flappy_Game-main/src/main.rs:404-409 | at score 0 the clamp never bites: a chain of draws is accepted exactly when every draw lies in [12, 38) |
| Generator.Spawn | flappy_Game-main/src/main.rs:404-409 | one obstacle per draw at columns x, x+30, ..., each of size 20 with a valid gap within 33 rows of the previous one; the history is the last draw |
| Game.SoundIf | flappy_Game-main/src/main.rs:140-144 | a sound is requested (once) exactly when audio is enabled |
| Game.New | flappy_Game-main/src/main.rs:112-137 | the initial state is the menu, score 0, both flags on, no buttons, no history, player at (5,25) |
| Game.RestartGame | flappy_Game-main/src/main.rs:397-417 | Playing, score 0, frame time 0, player at (5,25), no buttons, flags kept; three size-20 obstacles at 80/110/140 with valid gaps from the draws, each within 33 of the previous; history is the third gap; music requested iff enabled |
| Game.HandleButtonClick | flappy_Game-main/src/main.rs:197-222 | Play and Restart are exactly `restart`; Quit only requests quitting; the toggles flip exactly their own flag, rebuild the current screen's buttons with the new labels (none while Playing) and change nothing else, and ToggleMusic requests the new music setting; non-restart actions keep mode, score and obstacles |
| Game.ClickedAction | flappy_Game-main/src/main.rs:233-241 | an action is dispatched exactly when there is a click on some button, and it is the action of the first button under the pointer |
| Game.ScreenKey | flappy_Game-main/src/main.rs:270-285 | P is exactly `restart`; Q only requests quitting; M and B flip exactly their own flag and rebuild the screen's buttons with the new labels, changing nothing else, B also requesting the new music setting; no key or any other key changes nothing |
| Game.ScreenTick | flappy_Game-main/src/main.rs:244-286 | a menu or end tick either stays in its mode with score and obstacles untouched or enters Playing; quitting is requested exactly on a Quit click or key Q; each flag ends flipped once per toggle click or key (M/ToggleAudio, B/ToggleMusic); with no click on a button and no key the tick only builds the screen's layout if the list was empty and marks hover |
| Game.LastPassed | flappy_Game-main/src/main.rs:323-332 | the reported index is passed (player column strictly greater) and no later one is; none is reported exactly when nothing is passed |
| Game.MaxX | flappy_Game-main/src/main.rs:343 | the result is one of the obstacle columns and no column exceeds it; 80 when there are no obstacles |
| Game.PlayTick | flappy_Game-main/src/main.rs:288-353 | a play tick keeps the obstacle count and the buttons, raises the score by at most one, and flips audio exactly on M and music exactly on B |
| Game.Tick | flappy_Game-main/src/main.rs:433-439 | the menu never leads to End, and once out of the menu the game never returns to it |
| GameProperties.NewInv | flappy_Game-main/src/main.rs:116-136 | the initial state satisfies the invariant: 3 obstacles on the 80 + 30k grid, distinct columns, valid history |
| GameProperties.RestartInv | flappy_Game-main/src/main.rs:397-411 | restart establishes the invariant, including valid gaps everywhere |
| GameProperties.PassDrawAlwaysPossible | flappy_Game-main/src/main.rs:340-346 | in every state satisfying the invariant, the replacement obstacle's draw range is non-empty |
| GameProperties.RestartDrawsExist | flappy_Game-main/src/main.rs:404-409 | any three draws in [12, 38) are accepted by restart |
| GameProperties.ReplaceRightmostKeepsColumns | flappy_Game-main/src/main.rs:342-345 | an obstacle replaced at the rightmost column + 30 keeps all columns distinct and on the 80 + 30k grid |
| GameProperties.PlayInv | flappy_Game-main/src/main.rs:322-346 | every play tick preserves the invariant |
| GameProperties.ClickInv | flappy_Game-main/src/main.rs:197-222 | every button action preserves the invariant |
| GameProperties.ScreenKeyInv | flappy_Game-main/src/main.rs:379-394 | every end/menu key preserves the invariant |
| GameProperties.TickInv | flappy_Game-main/src/main.rs:433-439 | every tick preserves the invariant, so it holds in every reachable state |
| GameProperties.PassStep | flappy_Game-main/src/main.rs:340-346 | on a pass: score + 1, only the last passed obstacle replaced, at max column + 30 (30 right of every obstacle), with the new score's gap size and a centre within 33 of the previous; count unchanged; history is the new centre |
| GameProperties.NoPassStep | flappy_Game-main/src/main.rs:323-346 | without a pass, score, obstacles and history are unchanged |
| GameProperties.PlayingEndsIff | flappy_Game-main/src/main.rs:334-352 | a Playing tick ends in End exactly on a hit or with the player below row 50, otherwise stays Playing; the score is unchanged exactly when nothing was passed |
| GameProperties.PlayEffects | flappy_Game-main/src/main.rs:298-352 | a play tick requests music exactly when B was pressed, never quits, requests at most three effects, and a Hit sound always precedes a GameOver sound in the same tick |
| GameProperties.PlaySounds | flappy_Game-main/src/main.rs:298-352 | Hit, GameOver and Flap sounds are requested exactly when their event happens with audio on |
| GameProperties.FrameStep | flappy_Game-main/src/main.rs:290-296 | at most 75 ms accumulated: the player stays and time accumulates; more: the player takes the physics step and the accumulator resets to 0 |
| GameProperties.ScreenModeIff | flappy_Game-main/src/main.rs:355-395 | on the menu and end screens the mode becomes Playing exactly when P is pressed or a Play/Play Again button is clicked, and is otherwise unchanged |
| GameProperties.MenuAudioToggleTwice | flappy_Game-main/src/main.rs:274-277 | pressing M on the menu flips audio and relabels the buttons; pressing it twice restores the state exactly |
| GameProperties.MenuMusicToggleTwice | flappy_Game-main/src/main.rs:278-282 | pressing B on the menu flips music, relabels and requests the new setting; pressing it twice restores the state and requests the original setting |
| GameProperties.PlayToggleTwice | flappy_Game-main/src/main.rs:303-305 | during play M flips only audio, and two presses restore it |
| GameProperties.PlayMusicToggleTwice | flappy_Game-main/src/main.rs:307-310 | during play B flips only music and requests the new setting, and two presses restore it |
| GameProperties.RestartForgets | flappy_Game-main/src/main.rs:397-411 | restart depends only on the flags and the draws; restarting twice equals restarting once with the second draws |
| GameProperties.FirstPassScenario | flappy_Game-main/src/main.rs:340-346 | after restart, stepping to column 81 scores 1 and moves obstacle 0 to column 170 with gap size 19 within 33 rows of the third gap, leaving the others |
| GameProperties.MenuButtonsSurviveIntoPlay | flappy_Game-main/src/main.rs:270-281 | clicking Play and pressing M in one menu tick enters Playing with the menu buttons present |
| GameProperties.EndTickBuildsEndButtons | flappy_Game-main/src/main.rs:360-362 | an end tick on an empty button list builds the end layout (Play Again first), marks hover and requests nothing |
| GameProperties.EndKeepsButtons | flappy_Game-main/src/main.rs:359-362 | an end tick without click or key keeps a non-empty button list (only hover changes) and stays in End |

## Left out

- Rendering: `Button::render`, `set_background` (image loading), every `ctx.print*`/`cls` call and the obstacles' and player's `render`. The painted cells of a button are modelled only to state its clickable area.
- `sound.rs`: the audio threads and channels. Their messages are the `Effect` list (`PlaySound`, `MusicOn`, `MusicOff`). `SoundEffect::BGM` is never sent by `main.rs`.
- Player physics (`gravity_and_move`, `flap`), the velocity and `Obstacle::hit_obstacle` live in `player.rs` and `obstacle.rs`, which are not part of this model. The moved position and the hit flag are tick inputs. Space only requests the Flap sound here: the model assumes `flap` changes only the velocity, which it does not model.
- `Obstacle::render` and `Obstacle::hit_obstacle` take the obstacles by `&mut` in `play`; the model assumes they leave the obstacles' column, gap and size unchanged, which the obstacle invariant relies on.
- `Obstacle::new` is not part of this model. `New` takes the three initial obstacles as input and assumes `Obstacle::new(x, 0)` keeps the column `x` it is given; `NewInv` relies on this.
- The `f32` `frame_time` is an integer count of milliseconds, and `ctx.frame_time_ms` is rounded to whole milliseconds.
- `RandomNumberGenerator` internals: each `range(lo, hi)` call is an input draw with `lo <= r < hi`.
- Quitting: `ctx.quitting = true` becomes a `QuitRequested` effect; process exit is external.
- Game.PlayTick: score and columns are unbounded integers. The source's `i32` would overflow only after about 2^31 points or about 7·10^7 passes, which the model does not reach.

=== FILE: game.dfy ===
/**
  The game state and its per-tick transitions: `restart`, the play tick
  (time accumulator, key handling, pass detection, obstacle replacement,
  hit and floor checks), the menu and end-screen ticks with their mouse and
  keyboard dispatch, and `tick`, which picks one of them by mode.

  What the unmodelled collaborators (physics, collision test, random number
  generator) compute is passed in through `Input`: the
  player position after `gravity_and_move`, whether any `hit_obstacle` test
  fired, and the values `RandomNumberGenerator::range` returns. Sound and
  music requests and the quit request are returned as a list of `Effect`s.
*/
module Game {
  import opened Options
  import opened Layout
  import opened Generator

  /** Milliseconds that must accumulate before the player moves one step. */
  const FrameDuration := 75
  /** Number of obstacles alive at any time. */
  const InitialObstacles := 3
  /** Where `restart` puts the player. */
  const StartX := 5
  const StartY := 25

  /** The player's cell; its velocity lives in the physics module and is not modelled. */
  datatype Player = Player(x: int, y: int)

  datatype Mode = Menu | Playing | End

  /** The keys the game reacts to; any other key is `OtherKey`. */
  datatype Key = KeyP | KeyQ | KeyM | KeyB | KeySpace | OtherKey

  /** The sound effects the game requests (`SoundEffect`). */
  datatype Sound = Flap | Hit | GameOver

  /** A request to the outside world: a sound, starting or stopping music, or quitting. */
  datatype Effect = PlaySound(sound: Sound) | MusicOn | MusicOff | QuitRequested

  /** Everything of `State` that the game logic reads or writes. */
  datatype State = State(
    player: Player,
    frameTime: nat,
    mode: Mode,
    obstacles: seq<Obstacle>,
    score: nat,
    audioEnabled: bool,
    musicEnabled: bool,
    buttons: seq<Button>,
    lastGapY: Option<int>)

  /** The state after a step, and the effects it requested, in order. */
  datatype Outcome = Outcome(state: State, effects: seq<Effect>)

  /** What one tick receives from the terminal, the physics module and the random number generator. */
  datatype Input = Input(
    elapsedMs: nat,        // time since the previous tick, in whole milliseconds
    moved: Player,         // the player after one `gravity_and_move` step
    key: Option<Key>,
    mouseX: int,
    mouseY: int,
    leftClick: bool,
    hit: bool,             // some obstacle's `hit_obstacle` held for the player after physics
    clickDraws: seq<int>,  // draws for a restart triggered by a button
    keyDraws: seq<int>,    // draws for a restart triggered by key P
    passDraw: int)         // draw for the obstacle that replaces a passed one

  /** `play_sound`: a sound is only requested while audio is enabled. */
  function SoundIf(audioEnabled: bool, sound: Sound): (fx: seq<Effect>)
    ensures |fx| <= 1 && (|fx| == 1 <==> audioEnabled)
    ensures forall e :: e in fx ==> e == PlaySound(sound)
  {
    if audioEnabled then [PlaySound(sound)] else []
  }

  /** `set_music`: a message on the play channel or on the stop channel. */
  function SetMusic(enable: bool): Effect
  {
    if enable then MusicOn else MusicOff
  }

  /**
    `State::new`. The three starting obstacles come from `Obstacle::new`,
    which is not part of this model; they are passed in, already placed at
    columns 80, 110 and 140 by the loop of `new`.
  */
  function New(made: seq<Obstacle>): (s: State)
    requires |made| == InitialObstacles
    requires forall k :: 0 <= k < |made| ==> made[k].x == ScreenWidth + k * ObstacleInterval
    ensures s.mode == Menu && s.score == 0 && s.frameTime == 0
    ensures s.audioEnabled && s.musicEnabled && s.buttons == [] && s.lastGapY == None
    ensures s.player == Player(StartX, StartY) && s.obstacles == made
  {
    State(Player(StartX, StartY), 0, Menu, made, 0, true, true, [], None)
  }

  /** The draws one `restart` consumes: three, each accepted by the generator after the previous one. */
  predicate RestartDraws(d: seq<int>)
  {
    |d| == InitialObstacles && ChainedDraws(None, 0, d)
  }

  /**
    `restart`: a fresh player, a fresh set of three obstacles generated from
    an empty history, score 0, no buttons, and Playing mode. The flags are
    kept; music is (re)started when it is enabled.
  */
  function RestartGame(s: State, d: seq<int>): (o: Outcome)
    requires RestartDraws(d)
    ensures o.state.mode == Playing && o.state.score == 0 && o.state.frameTime == 0
    ensures o.state.player == Player(StartX, StartY) && o.state.buttons == []
    ensures o.state.audioEnabled == s.audioEnabled && o.state.musicEnabled == s.musicEnabled
    ensures |o.state.obstacles| == InitialObstacles
    ensures forall k :: 0 <= k < InitialObstacles ==>
      && o.state.obstacles[k].x == ScreenWidth + k * ObstacleInterval
      && o.state.obstacles[k].size == StartGapSize
      && o.state.obstacles[k].gapY == d[k]
      && ValidGap(o.state.obstacles[k])
    ensures forall k :: 1 <= k < InitialObstacles ==>
      d[k - 1] - MaxDiff <= o.state.obstacles[k].gapY < d[k - 1] + MaxDiff
    ensures o.state.lastGapY == Some(o.state.obstacles[InitialObstacles - 1].gapY)
    ensures o.effects == if s.musicEnabled then [MusicOn] else []
  {
    var (obs, hist) := Spawn(None, ScreenWidth, d);
    var t := State(Player(StartX, StartY), 0, Playing, obs, 0, s.audioEnabled, s.musicEnabled, [], hist);
    Outcome(t, if s.musicEnabled then [SetMusic(true)] else [])
  }

  /** The two screens that show buttons. */
  datatype Screen = MenuScreen | EndScreen

  /** The buttons a screen creates for the given flags. */
  function ScreenButtons(screen: Screen, audio: bool, music: bool): seq<Button>
  {
    match screen
    case MenuScreen => MenuButtons(audio, music)
    case EndScreen => EndButtons(audio, music)
  }

  /** The button rebuild after a toggle in `handle_button_click`: by mode, and none while Playing. */
  function RebuildButtons(s: State): seq<Button>
  {
    match s.mode
    case Menu => MenuButtons(s.audioEnabled, s.musicEnabled)
    case End => EndButtons(s.audioEnabled, s.musicEnabled)
    case Playing => s.buttons
  }

  /** `handle_button_click`; `d` are the draws used if the action restarts the game. */
  function HandleButtonClick(s: State, action: Action, d: seq<int>): (o: Outcome)
    requires RestartDraws(d)
    ensures action.Play? || action.Restart? ==> o == RestartGame(s, d)
    ensures !(action.Play? || action.Restart?) ==> o.state.mode == s.mode && o.state.obstacles == s.obstacles && o.state.score == s.score
    ensures o.state.audioEnabled == (if action.ToggleAudio? then !s.audioEnabled else s.audioEnabled)
    ensures o.state.musicEnabled == (if action.ToggleMusic? then !s.musicEnabled else s.musicEnabled)
    ensures QuitRequested in o.effects <==> action.Quit?
    ensures action.Quit? ==> o == Outcome(s, [QuitRequested])
    ensures (action.ToggleAudio? || action.ToggleMusic?) && s.mode != Playing ==>
      o.state.buttons == ScreenButtons(if s.mode == Menu then MenuScreen else EndScreen, o.state.audioEnabled, o.state.musicEnabled)
    ensures (action.ToggleAudio? || action.ToggleMusic?) && s.mode == Playing ==> o.state.buttons == s.buttons
    ensures action.ToggleAudio? ==> o.effects == []
    ensures action.ToggleMusic? ==> o.effects == [SetMusic(o.state.musicEnabled)]
    ensures action.ToggleAudio? || action.ToggleMusic? ==>
      o.state == s.(audioEnabled := o.state.audioEnabled, musicEnabled := o.state.musicEnabled, buttons := o.state.buttons)
  {
    match action
    case Play => RestartGame(s, d)
    case Quit => Outcome(s, [QuitRequested])
    case ToggleAudio =>
      var t := s.(audioEnabled := !s.audioEnabled);
      Outcome(t.(buttons := RebuildButtons(t)), [])
    case ToggleMusic =>
      var t := s.(musicEnabled := !s.musicEnabled);
      Outcome(t.(buttons := RebuildButtons(t)), [SetMusic(t.musicEnabled)])
    case Restart => RestartGame(s, d)
  }

  /** The action a click triggers on the given buttons, if the click lands on one (`handle_mouse`). */
  function ClickedAction(bs: seq<Button>, inp: Input): (a: Option<Action>)
    ensures a.Some? <==> inp.leftClick && exists i :: 0 <= i < |bs| && Contains(bs[i], inp.mouseX, inp.mouseY)
    ensures a.Some? ==>
      exists i :: (0 <= i < |bs| && Contains(bs[i], inp.mouseX, inp.mouseY)
        && (forall j :: 0 <= j < i ==> !Contains(bs[j], inp.mouseX, inp.mouseY)) && a.value == bs[i].action)
  {
    if !inp.leftClick then None
    else match FirstContaining(bs, inp.mouseX, inp.mouseY)
      case None => None
      case Some(i) => Some(bs[i].action)
  }

  /** The key handling of `main_menu` / `dead`, applied to the state after the mouse handling. */
  function ScreenKey(s: State, key: Option<Key>, screen: Screen, d: seq<int>): (o: Outcome)
    requires RestartDraws(d)
    ensures key == Some(KeyP) ==> o == RestartGame(s, d)
    ensures key == Some(KeyQ) ==> o == Outcome(s, [QuitRequested])
    ensures key != Some(KeyP) ==> o.state.mode == s.mode && o.state.obstacles == s.obstacles && o.state.score == s.score
    ensures o.state.audioEnabled == (if key == Some(KeyM) then !s.audioEnabled else s.audioEnabled)
    ensures o.state.musicEnabled == (if key == Some(KeyB) then !s.musicEnabled else s.musicEnabled)
    ensures key == Some(KeyM) || key == Some(KeyB) ==>
      o.state.buttons == ScreenButtons(screen, o.state.audioEnabled, o.state.musicEnabled)
    ensures key == Some(KeyM) ==> o.effects == []
    ensures key == Some(KeyB) ==> o.effects == [SetMusic(o.state.musicEnabled)]
    ensures key == Some(KeyM) || key == Some(KeyB) ==>
      o.state == s.(audioEnabled := o.state.audioEnabled, musicEnabled := o.state.musicEnabled, buttons := o.state.buttons)
    ensures key.None? || key == Some(KeySpace) || key == Some(OtherKey) ==> o == Outcome(s, [])
  {
    match key
    case Some(KeyP) => RestartGame(s, d)
    case Some(KeyQ) => Outcome(s, [QuitRequested])
    case Some(KeyM) =>
      var t := s.(audioEnabled := !s.audioEnabled);
      Outcome(t.(buttons := ScreenButtons(screen, t.audioEnabled, t.musicEnabled)), [])
    case Some(KeyB) =>
      var t := s.(musicEnabled := !s.musicEnabled);
      Outcome(t.(buttons := ScreenButtons(screen, t.audioEnabled, t.musicEnabled)), [SetMusic(t.musicEnabled)])
    case _ => Outcome(s, [])
  }

  /** The buttons a menu or end tick works with: the current list, or the screen's layout when the list is empty. */
  function ShownButtons(s: State, screen: Screen): seq<Button>
  {
    if |s.buttons| == 0 then ScreenButtons(screen, s.audioEnabled, s.musicEnabled) else s.buttons
  }

  /** The action a menu or end tick's click triggers, if any. */
  function ScreenClick(s: State, inp: Input, screen: Screen): Option<Action>
  {
    ClickedAction(Hover(ShownButtons(s, screen), inp.mouseX, inp.mouseY), inp)
  }

  /**
    One tick of `main_menu` (MenuScreen) or `dead` (EndScreen): create the
    screen's buttons if there are none, mark hover, dispatch a click on the
    first button under the pointer, then dispatch the key.
  */
  function ScreenTick(s: State, inp: Input, screen: Screen): (o: Outcome)
    requires RestartDraws(inp.clickDraws) && RestartDraws(inp.keyDraws)
    ensures o.state.mode == s.mode || o.state.mode == Playing
    ensures s.mode != Playing && o.state.mode == s.mode ==> o.state.score == s.score && o.state.obstacles == s.obstacles
    ensures QuitRequested in o.effects <==> ScreenClick(s, inp, screen) == Some(Quit) || inp.key == Some(KeyQ)
    ensures o.state.audioEnabled ==
      ((s.audioEnabled != (ScreenClick(s, inp, screen) == Some(ToggleAudio))) != (inp.key == Some(KeyM)))
    ensures o.state.musicEnabled ==
      ((s.musicEnabled != (ScreenClick(s, inp, screen) == Some(ToggleMusic))) != (inp.key == Some(KeyB)))
    ensures ScreenClick(s, inp, screen).None? && inp.key.None? ==>
      o == Outcome(s.(buttons := Hover(ShownButtons(s, screen), inp.mouseX, inp.mouseY)), [])
  {
    var hovered := s.(buttons := Hover(ShownButtons(s, screen), inp.mouseX, inp.mouseY));
    var clicked :=
      match ScreenClick(s, inp, screen)
      case None => Outcome(hovered, [])
      case Some(a) => HandleButtonClick(hovered, a, inp.clickDraws);
    var keyed := ScreenKey(clicked.state, inp.key, screen, inp.keyDraws);
    Outcome(keyed.state, clicked.effects + keyed.effects)
  }

  /**
    `play`'s pass detection: the LAST index whose obstacle lies strictly left
    of the player, as the loop that overwrites `passed` finds it.
  */
  function LastPassed(obs: seq<Obstacle>, px: int): (r: Option<nat>)
    ensures r.Some? ==> r.value < |obs| && px > obs[r.value].x
    ensures r.Some? ==> forall j :: r.value < j < |obs| ==> px <= obs[j].x
    ensures r.None? <==> forall j :: 0 <= j < |obs| ==> px <= obs[j].x
  {
    if |obs| == 0 then None
    else if px > obs[|obs| - 1].x then Some(|obs| - 1)
    else LastPassed(obs[..|obs| - 1], px)
  }

  /** The largest obstacle column, or the screen width when there are no obstacles (`max().unwrap_or`). */
  function MaxX(obs: seq<Obstacle>): (m: int)
    ensures |obs| == 0 ==> m == ScreenWidth
    ensures forall k :: 0 <= k < |obs| ==> obs[k].x <= m
    ensures |obs| > 0 ==> exists k :: 0 <= k < |obs| && obs[k].x == m
  {
    if |obs| == 0 then ScreenWidth
    else if |obs| == 1 then obs[0].x
    else Max(obs[0].x, MaxX(obs[1..]))
  }

  /** The `frame_time` accumulator: the player moves one step once more than 75 ms have gathered. */
  function Physics(s: State, inp: Input): (nat, Player)
  {
    var ft := s.frameTime + inp.elapsedMs;
    if ft > FrameDuration then (0, inp.moved) else (ft, s.player)
  }

  /** The draw for a replacement obstacle is only demanded when this tick passes one. */
  predicate PassDrawOk(s: State, inp: Input)
  {
    LastPassed(s.obstacles, Physics(s, inp).1.x).Some? ==>
      InRange(inp.passDraw, DrawRange(s.score + 1, s.lastGapY))
  }

  /**
    One tick of `play`: physics, Space / M / B keys, then pass detection and
    obstacle replacement, a hit, and falling below the screen.
  */
  function PlayTick(s: State, inp: Input): (o: Outcome)
    requires PassDrawOk(s, inp)
    ensures |o.state.obstacles| == |s.obstacles|
    ensures o.state.score == s.score || o.state.score == s.score + 1
    ensures o.state.buttons == s.buttons
    ensures o.state.audioEnabled == (if inp.key == Some(KeyM) then !s.audioEnabled else s.audioEnabled)
    ensures o.state.musicEnabled == (if inp.key == Some(KeyB) then !s.musicEnabled else s.musicEnabled)
  {
    var (ft, p) := Physics(s, inp);
    var flapFx := if inp.key == Some(KeySpace) then SoundIf(s.audioEnabled, Flap) else [];
    var audio := if inp.key == Some(KeyM) then !s.audioEnabled else s.audioEnabled;
    var music := if inp.key == Some(KeyB) then !s.musicEnabled else s.musicEnabled;
    var musicFx := if inp.key == Some(KeyB) then [SetMusic(music)] else [];
    var passed := LastPassed(s.obstacles, p.x);
    var hitMode := if inp.hit then End else s.mode;
    var hitFx := if inp.hit then SoundIf(audio, Hit) else [];
    var t := s.(player := p, frameTime := ft, audioEnabled := audio, musicEnabled := music, mode := hitMode);
    var u :=
      if passed.Some? then
        var g := Generate(t.lastGapY, MaxX(t.obstacles) + ObstacleInterval, t.score + 1, inp.passDraw);
        t.(score := t.score + 1, obstacles := t.obstacles[passed.value := g.0], lastGapY := g.1)
      else t;
    var fell := p.y > ScreenHeight;
    var fallFx := if fell then SoundIf(audio, GameOver) else [];
    Outcome(if fell then u.(mode := End) else u, flapFx + musicFx + hitFx + fallFx)
  }

  /** What a tick needs from its input: valid draws for every random range the tick may ask for. */
  predicate InputOk(s: State, inp: Input)
  {
    && (s.mode != Playing ==> RestartDraws(inp.clickDraws) && RestartDraws(inp.keyDraws))
    && (s.mode == Playing ==> PassDrawOk(s, inp))
  }

  /** `tick`: run the handler of the current mode. */
  function Tick(s: State, inp: Input): (o: Outcome)
    requires InputOk(s, inp)
    ensures s.mode == Menu ==> o.state.mode != End
    ensures s.mode != Menu ==> o.state.mode != Menu
  {
    match s.mode
    case Menu => ScreenTick(s, inp, MenuScreen)
    case Playing => PlayTick(s, inp)
    case End => ScreenTick(s, inp, EndScreen)
  }
}

=== FILE: generator.dfy ===
/**
  The constrained obstacle generator (`create_obstacle_with_constraint`).

  The gap shrinks with the score, its centre stays clear of the screen edges,
  and once a previous centre exists the next one is drawn within `MaxDiff`
  (two thirds of the screen height) rows of it. The random
  number generator is replaced by the draw `r` it would return: bracket-lib's
  `range(lo, hi)` yields a value with `lo <= r < hi`.
*/
module Generator {
  import opened Options

  /** Screen size of the 80x50 terminal. */
  const ScreenWidth := 80
  const ScreenHeight := 50
  /** Horizontal spacing between consecutive obstacles. */
  const ObstacleInterval := 30
  /** Smallest and starting gap sizes. */
  const MinGapSize := 5
  const StartGapSize := 20
  /** Rows kept free between a gap's edge and the top or bottom of the screen. */
  const EdgeMargin := 2
  /** Largest allowed move of the gap centre between consecutive obstacles: (50 * 2) / 3. */
  const MaxDiff := (ScreenHeight * 2) / 3

  /** A wall at column `x` with an opening of `size` rows centred on row `gapY`. */
  datatype Obstacle = Obstacle(x: int, gapY: int, size: int)

  /** A half-open range `[lo, hi)` of rows, as `RandomNumberGenerator::range` takes it. */
  datatype Range = Range(lo: int, hi: int)

  predicate InRange(r: int, rg: Range)
  {
    rg.lo <= r < rg.hi
  }

  function Max(a: int, b: int): int
  {
    if a >= b then a else b
  }

  function Min(a: int, b: int): int
  {
    if a <= b then a else b
  }

  /** `i32::max(5, 20 - score)`: the gap size for an obstacle generated at `score`. */
  function GapSize(score: nat): (size: int)
    ensures MinGapSize <= size <= StartGapSize
    ensures size >= StartGapSize - score
    ensures size == MinGapSize || size == StartGapSize - score
  {
    Max(MinGapSize, StartGapSize - score)
  }

  /** The first row a gap centre of this size may take. */
  function MinGapY(size: int): int
  {
    size / 2 + EdgeMargin
  }

  /** Exclusive upper bound for a gap centre of this size: every centre lies strictly before this row. */
  function MaxGapY(size: int): int
  {
    ScreenHeight - size / 2 - EdgeMargin
  }

  /** The gap of `o` keeps its margin to both screen edges and has a legal size. */
  predicate ValidGap(o: Obstacle)
  {
    MinGapSize <= o.size <= StartGapSize && MinGapY(o.size) <= o.gapY < MaxGapY(o.size)
  }

  /** The range passed to `random.range`, clamped around the previous centre when there is one. */
  function DrawRange(score: nat, last: Option<int>): Range
  {
    var size := GapSize(score);
    match last
    case None => Range(MinGapY(size), MaxGapY(size))
    case Some(prev) => Range(Max(MinGapY(size), prev - MaxDiff), Min(MaxGapY(size), prev + MaxDiff))
  }

  /** A gap centre the generator can itself have produced: every valid gap lies in [4, 46). */
  predicate HistoryOk(last: Option<int>)
  {
    last.Some? ==> MinGapY(MinGapSize) <= last.value < MaxGapY(MinGapSize)
  }

  /**
    `create_obstacle_with_constraint(x, score)` given the draw `r`. Returns the
    obstacle and the new gap history.
  */
  function Generate(last: Option<int>, x: int, score: nat, r: int): (g: (Obstacle, Option<int>))
    requires InRange(r, DrawRange(score, last))
    ensures g.0.x == x && g.0.size == GapSize(score) && g.0.gapY == r
    ensures g.1 == Some(g.0.gapY)
    ensures ValidGap(g.0) && HistoryOk(g.1)
    ensures last.Some? ==> last.value - MaxDiff <= g.0.gapY < last.value + MaxDiff
  {
    var o := Obstacle(x, r, GapSize(score));
    (o, Some(o.gapY))
  }

  /** The draws a range call accepts are exactly the centres that are valid for the size and near the previous one. */
  lemma DrawRangeExact(score: nat, last: Option<int>, r: int)
    ensures InRange(r, DrawRange(score, last)) <==>
      && MinGapY(GapSize(score)) <= r < MaxGapY(GapSize(score))
      && (last.Some? ==> last.value - MaxDiff <= r < last.value + MaxDiff)
  {
  }

  /** The gap size never grows as the score grows, and reaches its floor of 5 at score 15. */
  lemma GapSizeMonotone(s: nat, t: nat)
    requires s <= t
    ensures GapSize(t) <= GapSize(s)
    ensures t >= 15 ==> GapSize(t) == MinGapSize
    ensures GapSize(20) == 5
  {
  }

  /** The clamped range is empty exactly when the previous centre lies 33 or more rows outside the unclamped one. */
  lemma DrawRangeNonEmptyIff(score: nat, prev: int)
    ensures DrawRange(score, Some(prev)).lo < DrawRange(score, Some(prev)).hi <==>
      MinGapY(GapSize(score)) - MaxDiff < prev < MaxGapY(GapSize(score)) + MaxDiff
  {
  }

  /**
    With a history the generator produced, the clamped range always contains
    rows 12 to 36, so the draw is always possible and no fallback is needed.
  */
  lemma DrawRangeNeverEmpty(score: nat, last: Option<int>)
    requires HistoryOk(last)
    ensures DrawRange(score, last).lo <= 12 && 37 <= DrawRange(score, last).hi
  {
  }

  /**
    Draws `d` that the generator accepts one after the other at `score`, each
    clamped around the previous one, starting from history `last`.
  */
  predicate ChainedDraws(last: Option<int>, score: nat, d: seq<int>)
    decreases |d|
  {
    |d| == 0 || (InRange(d[0], DrawRange(score, last)) && ChainedDraws(Some(d[0]), score, d[1..]))
  }

  /**
    At score 0 (gap 20) the clamp is never active: from no history, or from a
    centre in [12, 38), a chain of draws is accepted exactly when each lies in [12, 38).
  */
  lemma {:induction false} StartChainUnclamped(last: Option<int>, d: seq<int>)
    requires last.Some? ==> 12 <= last.value < 38
    ensures ChainedDraws(last, 0, d) <==> forall k :: 0 <= k < |d| ==> 12 <= d[k] < 38
    decreases |d|
  {
    if |d| > 0 {
      assert InRange(d[0], DrawRange(0, last)) <==> 12 <= d[0] < 38;
      if 12 <= d[0] < 38 {
        StartChainUnclamped(Some(d[0]), d[1..]);
        assert forall k :: 1 <= k < |d| ==> d[k] == d[1..][k - 1];
      }
    }
  }

  /**
    The obstacle-building loop of `restart`: one obstacle per draw, at columns
    `x`, `x + 30`, ..., all generated at score 0. Returns the obstacles and
    the history after the last one.
  */
  function Spawn(last: Option<int>, x: int, d: seq<int>): (r: (seq<Obstacle>, Option<int>))
    requires ChainedDraws(last, 0, d)
    ensures |r.0| == |d|
    ensures forall k :: 0 <= k < |d| ==> r.0[k].x == x + k * ObstacleInterval && r.0[k].gapY == d[k]
    ensures forall k :: 0 <= k < |d| ==> r.0[k].size == StartGapSize && ValidGap(r.0[k])
    ensures forall k :: 0 < k < |d| ==> d[k - 1] - MaxDiff <= r.0[k].gapY < d[k - 1] + MaxDiff
    ensures r.1 == if |d| == 0 then last else Some(d[|d| - 1])
    ensures |d| > 0 && last.Some? ==> last.value - MaxDiff <= r.0[0].gapY < last.value + MaxDiff
    decreases |d|
  {
    if |d| == 0 then ([], last)
    else
      var (o, h) := Generate(last, x, 0, d[0]);
      var (rest, h') := Spawn(h, x + ObstacleInterval, d[1..]);
      ([o] + rest, h')
  }
}

=== FILE: layout.dfy ===
/**
  Menu and end-screen buttons: their fixed layout, the half-open rectangle
  hit test, hover marking and the first-match click lookup of `handle_mouse`.
  Drawing the buttons is not modelled; only the cells a button covers matter.
*/
module Layout {
  import opened Options

  /** What a button does when it is clicked (`ButtonAction`). */
  datatype Action = Play | Quit | ToggleAudio | ToggleMusic | Restart

  /** An on-screen button. `hover` is only read when the button is drawn. */
  datatype Button = Button(x: int, y: int, width: int, height: int, text: string, action: Action, hover: bool)

  /** Every button of both screens sits at column 30 and is 20 cells wide and 3 high. */
  const ButtonColumn := 30
  const ButtonWidth := 20
  const ButtonHeight := 3

  /** `Button::new`: a fresh button is never hovered. */
  function NewButton(x: int, y: int, width: int, height: int, text: string, action: Action): (b: Button)
    ensures !b.hover && b.action == action && b.text == text
    ensures b.x == x && b.y == y && b.width == width && b.height == height
  {
    Button(x, y, width, height, text, action, false)
  }

  /** `Button::contains_point`: the point lies in the half-open rectangle of the button. */
  predicate Contains(b: Button, px: int, py: int)
  {
    b.x <= px < b.x + b.width && b.y <= py < b.y + b.height
  }

  /** The cells `Button::render` paints: every `(x + dx, y + dy)` with `dx < width`, `dy < height`. */
  function Cells(b: Button): set<(int, int)>
  {
    set dx: int, dy: int | 0 <= dx < b.width && 0 <= dy < b.height :: Offset(b, dx, dy)
  }

  /** The cell `dx` columns right of and `dy` rows below the top-left corner of `b`. */
  function Offset(b: Button, dx: int, dy: int): (int, int)
  {
    (b.x + dx, b.y + dy)
  }

  /** The clickable area of a button is exactly the area it paints. */
  lemma ContainsIffPainted(b: Button, px: int, py: int)
    ensures Contains(b, px, py) <==> (px, py) in Cells(b)
  {
    if Contains(b, px, py) {
      var dx, dy := px - b.x, py - b.y;
      assert Offset(b, dx, dy) in Cells(b);
    }
  }

  /** The text shown for an on/off flag. */
  function OnOff(on: bool): string
  {
    if on then "ON" else "OFF"
  }

  /** `create_menu_buttons`: Play, Quit, Audio and Music at rows 15, 20, 25 and 30. */
  function MenuButtons(audio: bool, music: bool): seq<Button>
  {
    [ NewButton(ButtonColumn, 15, ButtonWidth, ButtonHeight, "Play Game", Play),
      NewButton(ButtonColumn, 20, ButtonWidth, ButtonHeight, "Quit Game", Quit),
      NewButton(ButtonColumn, 25, ButtonWidth, ButtonHeight, "Audio: " + OnOff(audio), ToggleAudio),
      NewButton(ButtonColumn, 30, ButtonWidth, ButtonHeight, "Music: " + OnOff(music), ToggleMusic) ]
  }

  /** `create_end_buttons`: Play Again, Quit, Audio and Music at rows 20, 25, 30 and 35. */
  function EndButtons(audio: bool, music: bool): seq<Button>
  {
    [ NewButton(ButtonColumn, 20, ButtonWidth, ButtonHeight, "Play Again", Restart),
      NewButton(ButtonColumn, 25, ButtonWidth, ButtonHeight, "Quit Game", Quit),
      NewButton(ButtonColumn, 30, ButtonWidth, ButtonHeight, "Audio: " + OnOff(audio), ToggleAudio),
      NewButton(ButtonColumn, 35, ButtonWidth, ButtonHeight, "Music: " + OnOff(music), ToggleMusic) ]
  }

  /** No point lies in two different buttons of `bs`. */
  ghost predicate Disjoint(bs: seq<Button>)
  {
    forall i, j, px, py :: 0 <= i < j < |bs| && Contains(bs[i], px, py) ==> !Contains(bs[j], px, py)
  }

  /** Buttons stacked top to bottom in one column, each ending above the next one's top row, never overlap. */
  lemma StackedDisjoint(bs: seq<Button>)
    requires forall i :: 0 <= i < |bs| ==> bs[i].x == ButtonColumn && bs[i].width == ButtonWidth
    requires forall i :: 0 <= i < |bs| - 1 ==> bs[i].y + bs[i].height <= bs[i + 1].y
    requires forall i :: 0 <= i < |bs| ==> 0 <= bs[i].height
    ensures Disjoint(bs)
  {
    forall i, j | 0 <= i < j < |bs|
      ensures bs[i].y + bs[i].height <= bs[j].y
    {
      StackedBelow(bs, i, j);
    }
  }

  /** In such a stack every later button starts below the end of an earlier one. */
  lemma {:induction false} StackedBelow(bs: seq<Button>, i: int, j: int)
    requires 0 <= i < j < |bs|
    requires forall i :: 0 <= i < |bs| - 1 ==> bs[i].y + bs[i].height <= bs[i + 1].y
    requires forall i :: 0 <= i < |bs| ==> 0 <= bs[i].height
    ensures bs[i].y + bs[i].height <= bs[j].y
    decreases j - i
  {
    if j > i + 1 {
      StackedBelow(bs, i + 1, j);
    }
  }

  /** The four menu buttons are pairwise disjoint, so a click reaches at most one of them. */
  lemma MenuButtonsDisjoint(audio: bool, music: bool)
    ensures Disjoint(MenuButtons(audio, music))
  {
    StackedDisjoint(MenuButtons(audio, music));
  }

  /** The four end-screen buttons are pairwise disjoint. */
  lemma EndButtonsDisjoint(audio: bool, music: bool)
    ensures Disjoint(EndButtons(audio, music))
  {
    StackedDisjoint(EndButtons(audio, music));
  }

  /** The Audio and Music labels read ON exactly when their flag is set, and OFF otherwise. */
  lemma LabelsTrackFlags(audio: bool, music: bool)
    ensures MenuButtons(audio, music)[2].text == "Audio: ON" <==> audio
    ensures MenuButtons(audio, music)[3].text == "Music: ON" <==> music
    ensures EndButtons(audio, music)[2].text == "Audio: ON" <==> audio
    ensures EndButtons(audio, music)[3].text == "Music: ON" <==> music
    ensures MenuButtons(audio, music)[2].text == "Audio: OFF" <==> !audio
    ensures MenuButtons(audio, music)[3].text == "Music: OFF" <==> !music
    ensures EndButtons(audio, music)[2].text == "Audio: OFF" <==> !audio
    ensures EndButtons(audio, music)[3].text == "Music: OFF" <==> !music
  {
    assert "Audio: ON" != "Audio: OFF" by { assert "Audio: ON"[8] != "Audio: OFF"[8]; }
    assert "Music: ON" != "Music: OFF" by { assert "Music: ON"[8] != "Music: OFF"[8]; }
  }

  /** The per-tick hover update of `handle_mouse`: only `hover` changes, and it marks the buttons under the pointer. */
  function Hover(bs: seq<Button>, px: int, py: int): (r: seq<Button>)
    ensures |r| == |bs|
    ensures forall i :: 0 <= i < |r| ==> r[i].hover == Contains(bs[i], px, py) && r[i] == bs[i].(hover := r[i].hover)
  {
    seq(|bs|, i requires 0 <= i < |bs| => bs[i].(hover := Contains(bs[i], px, py)))
  }

  /** The click loop of `handle_mouse`: the first button, in list order, under the pointer. */
  function FirstContaining(bs: seq<Button>, px: int, py: int): (r: Option<nat>)
    ensures r.Some? ==> r.value < |bs| && Contains(bs[r.value], px, py)
    ensures r.Some? ==> forall j :: 0 <= j < r.value ==> !Contains(bs[j], px, py)
    ensures r.None? <==> forall j :: 0 <= j < |bs| ==> !Contains(bs[j], px, py)
  {
    if |bs| == 0 then None
    else if Contains(bs[0], px, py) then Some(0)
    else match FirstContaining(bs[1..], px, py)
      case None => None
      case Some(i) => Some(i + 1)
  }

  /** On a disjoint layout the first match is the only match: a click picks button `i` exactly when it lies in `i`. */
  lemma DisjointClickIsUnique(bs: seq<Button>, px: int, py: int, i: nat)
    requires Disjoint(bs)
    ensures FirstContaining(bs, px, py) == Some(i) <==> i < |bs| && Contains(bs[i], px, py)
  {
    if i < |bs| && Contains(bs[i], px, py) {
      assert forall j :: 0 <= j < i ==> !Contains(bs[j], px, py);
    }
  }

  /** Which menu action a click at `(px, py)` triggers: the row band it falls in, inside columns 30..49. */
  lemma MenuClickTargets(audio: bool, music: bool, px: int, py: int)
    ensures FirstContaining(MenuButtons(audio, music), px, py).Some? <==>
      30 <= px < 50 && (15 <= py < 18 || 20 <= py < 23 || 25 <= py < 28 || 30 <= py < 33)
    ensures FirstContaining(MenuButtons(audio, music), px, py) == Some(0) <==> 30 <= px < 50 && 15 <= py < 18
    ensures FirstContaining(MenuButtons(audio, music), px, py) == Some(1) <==> 30 <= px < 50 && 20 <= py < 23
  {
    var bs := MenuButtons(audio, music);
    assert Contains(bs[0], px, py) <==> 30 <= px < 50 && 15 <= py < 18;
    assert Contains(bs[1], px, py) <==> 30 <= px < 50 && 20 <= py < 23;
    assert Contains(bs[2], px, py) <==> 30 <= px < 50 && 25 <= py < 28;
    assert Contains(bs[3], px, py) <==> 30 <= px < 50 && 30 <= py < 33;
    MenuButtonsDisjoint(audio, music);
    DisjointClickIsUnique(bs, px, py, 0);
    DisjointClickIsUnique(bs, px, py, 1);
  }

  /** Which end-screen action a click triggers: Play Again in rows 20..22, Quit in rows 25..27. */
  lemma EndClickTargets(audio: bool, music: bool, px: int, py: int)
    ensures FirstContaining(EndButtons(audio, music), px, py).Some? <==>
      30 <= px < 50 && (20 <= py < 23 || 25 <= py < 28 || 30 <= py < 33 || 35 <= py < 38)
    ensures FirstContaining(EndButtons(audio, music), px, py) == Some(0) <==> 30 <= px < 50 && 20 <= py < 23
    ensures FirstContaining(EndButtons(audio, music), px, py) == Some(1) <==> 30 <= px < 50 && 25 <= py < 28
  {
    var bs := EndButtons(audio, music);
    assert Contains(bs[0], px, py) <==> 30 <= px < 50 && 20 <= py < 23;
    assert Contains(bs[1], px, py) <==> 30 <= px < 50 && 25 <= py < 28;
    assert Contains(bs[2], px, py) <==> 30 <= px < 50 && 30 <= py < 33;
    assert Contains(bs[3], px, py) <==> 30 <= px < 50 && 35 <= py < 38;
    EndButtonsDisjoint(audio, music);
    DisjointClickIsUnique(bs, px, py, 0);
    DisjointClickIsUnique(bs, px, py, 1);
  }
}

=== FILE: options.dfy ===
/** The optional-value type used for the gap history, the pressed key and search results. */
module Options {

  /** `None` or `Some(value)`, as Rust's `Option<T>`. */
  datatype Option<+T> = None | Some(value: T)
}

=== FILE: properties.dfy ===
/**
  Properties of the game model that relate several steps or hold for every
  reachable state: the obstacle invariant every tick preserves, the pass
  step, the mode rules, the frame-time rule, the toggles and restart.
*/
module GameProperties {
  import opened Options
  import opened Layout
  import opened Generator
  import opened Game

  /** Obstacle columns are 80 plus a multiple of 30. */
  predicate OnGrid(o: Obstacle)
  {
    o.x >= ScreenWidth && (o.x - ScreenWidth) % ObstacleInterval == 0
  }

  /** No two obstacles share a column. */
  predicate DistinctColumns(obs: seq<Obstacle>)
  {
    forall i, j :: 0 <= i < j < |obs| ==> obs[i].x != obs[j].x
  }

  /**
    What holds of every reachable state: three obstacles on the 30-column
    grid at distinct columns, a history the generator can have produced,
    and, once a game has started, legal gaps everywhere.
  */
  predicate Inv(s: State)
  {
    && |s.obstacles| == InitialObstacles
    && (forall i :: 0 <= i < |s.obstacles| ==> OnGrid(s.obstacles[i]))
    && DistinctColumns(s.obstacles)
    && HistoryOk(s.lastGapY)
    && (s.mode != Menu ==> forall i :: 0 <= i < |s.obstacles| ==> ValidGap(s.obstacles[i]))
  }

  /** The state `new` builds satisfies the invariant. */
  lemma NewInv(made: seq<Obstacle>)
    requires |made| == InitialObstacles
    requires forall k :: 0 <= k < |made| ==> made[k].x == ScreenWidth + k * ObstacleInterval
    ensures Inv(New(made))
  {
  }

  /** `restart` establishes the invariant whatever state it starts from. */
  lemma RestartInv(s: State, d: seq<int>)
    requires RestartDraws(d)
    ensures Inv(RestartGame(s, d).state)
  {
    var t := RestartGame(s, d).state;
    assert t.obstacles[0].x == 80 && t.obstacles[1].x == 110 && t.obstacles[2].x == 140;
    StartChainUnclamped(None, d);
  }

  /** From any state that satisfies the invariant, the replacement obstacle's range is non-empty: a Playing tick can always draw. */
  lemma PassDrawAlwaysPossible(s: State)
    requires Inv(s)
    ensures DrawRange(s.score + 1, s.lastGapY).lo < DrawRange(s.score + 1, s.lastGapY).hi
  {
    DrawRangeNeverEmpty(s.score + 1, s.lastGapY);
  }

  /** Three draws in [12, 38) are always accepted by `restart`, from any state. */
  lemma RestartDrawsExist(d: seq<int>)
    requires |d| == InitialObstacles && forall k :: 0 <= k < |d| ==> 12 <= d[k] < 38
    ensures RestartDraws(d)
  {
    StartChainUnclamped(None, d);
  }

  /** Replacing one obstacle with a new one to the right of all others keeps the columns on the grid and distinct. */
  lemma ReplaceRightmostKeepsColumns(obs: seq<Obstacle>, i: nat, o: Obstacle)
    requires i < |obs| && DistinctColumns(obs)
    requires forall k :: 0 <= k < |obs| ==> OnGrid(obs[k])
    requires o.x == MaxX(obs) + ObstacleInterval
    ensures DistinctColumns(obs[i := o])
    ensures OnGrid(o)
  {
    var k0 :| 0 <= k0 < |obs| && obs[k0].x == MaxX(obs);
    assert (o.x - ScreenWidth) % ObstacleInterval == ((obs[k0].x - ScreenWidth) + ObstacleInterval) % ObstacleInterval;
    var r := obs[i := o];
    forall a, b | 0 <= a < b < |r|
      ensures r[a].x != r[b].x
    {
      if a == i {
        assert r[b].x == obs[b].x <= MaxX(obs) < o.x;
      } else if b == i {
        assert r[a].x == obs[a].x <= MaxX(obs) < o.x;
      } else {
        assert r[a] == obs[a] && r[b] == obs[b];
      }
    }
  }

  /** Every play tick keeps the invariant. */
  lemma PlayInv(s: State, inp: Input)
    requires Inv(s) && s.mode == Playing && PassDrawOk(s, inp)
    ensures Inv(PlayTick(s, inp).state)
  {
    var p := Physics(s, inp).1;
    var passed := LastPassed(s.obstacles, p.x);
    if passed.Some? {
      var g := Generate(s.lastGapY, MaxX(s.obstacles) + ObstacleInterval, s.score + 1, inp.passDraw);
      ReplaceRightmostKeepsColumns(s.obstacles, passed.value, g.0);
      assert PlayTick(s, inp).state.obstacles == s.obstacles[passed.value := g.0];
    }
  }

  /** The button handling of a menu or end-screen tick keeps the invariant. */
  lemma ClickInv(s: State, a: Action, d: seq<int>)
    requires Inv(s) && RestartDraws(d)
    ensures Inv(HandleButtonClick(s, a, d).state)
  {
    if a.Play? || a.Restart? {
      RestartInv(s, d);
    }
  }

  /** The key handling of a menu or end-screen tick keeps the invariant. */
  lemma ScreenKeyInv(s: State, key: Option<Key>, screen: Screen, d: seq<int>)
    requires Inv(s) && RestartDraws(d)
    ensures Inv(ScreenKey(s, key, screen, d).state)
  {
    if key == Some(KeyP) {
      RestartInv(s, d);
    }
  }

  /** Every tick keeps the invariant, so it holds in every state reachable from `new`. */
  lemma TickInv(s: State, inp: Input)
    requires Inv(s) && InputOk(s, inp)
    ensures Inv(Tick(s, inp).state)
  {
    match s.mode {
      case Playing => PlayInv(s, inp);
      case _ =>
        var screen := if s.mode == Menu then MenuScreen else EndScreen;
        var hovered := s.(buttons := Hover(ShownButtons(s, screen), inp.mouseX, inp.mouseY));
        var clicked :=
          match ScreenClick(s, inp, screen)
          case None => Outcome(hovered, [])
          case Some(a) => HandleButtonClick(hovered, a, inp.clickDraws);
        if ScreenClick(s, inp, screen).Some? {
          ClickInv(hovered, ScreenClick(s, inp, screen).value, inp.clickDraws);
        }
        ScreenKeyInv(clicked.state, inp.key, screen, inp.keyDraws);
    }
  }

  /**
    A play tick that passes an obstacle: the score goes up by exactly one,
    only the last passed obstacle is replaced, by one 30 columns right of the
    rightmost obstacle, with the gap size of the new score and a centre
    within 33 rows of the previous one; every other obstacle is untouched.
  */
  lemma PassStep(s: State, inp: Input, i: nat)
    requires PassDrawOk(s, inp)
    requires LastPassed(s.obstacles, Physics(s, inp).1.x) == Some(i)
    ensures PlayTick(s, inp).state.score == s.score + 1
    ensures |PlayTick(s, inp).state.obstacles| == |s.obstacles|
    ensures forall j :: 0 <= j < |s.obstacles| && j != i ==> PlayTick(s, inp).state.obstacles[j] == s.obstacles[j]
    ensures PlayTick(s, inp).state.obstacles[i].x == MaxX(s.obstacles) + ObstacleInterval
    ensures forall j :: 0 <= j < |s.obstacles| ==> PlayTick(s, inp).state.obstacles[i].x >= s.obstacles[j].x + ObstacleInterval
    ensures PlayTick(s, inp).state.obstacles[i].size == GapSize(s.score + 1)
    ensures PlayTick(s, inp).state.lastGapY == Some(PlayTick(s, inp).state.obstacles[i].gapY)
    ensures s.lastGapY.Some? ==> s.lastGapY.value - MaxDiff <= PlayTick(s, inp).state.obstacles[i].gapY < s.lastGapY.value + MaxDiff
  {
  }

  /** A play tick that passes nothing leaves the score, the obstacles and the history alone. */
  lemma NoPassStep(s: State, inp: Input)
    requires PassDrawOk(s, inp)
    requires LastPassed(s.obstacles, Physics(s, inp).1.x) == None
    ensures PlayTick(s, inp).state.score == s.score
    ensures PlayTick(s, inp).state.obstacles == s.obstacles
    ensures PlayTick(s, inp).state.lastGapY == s.lastGapY
  {
  }

  /**
    A Playing tick ends the game exactly when an obstacle was hit or the
    player is below row 50 after physics; otherwise the game goes on. The
    score only changes through a pass, even in a tick that ends the game.
  */
  lemma PlayingEndsIff(s: State, inp: Input)
    requires s.mode == Playing && PassDrawOk(s, inp)
    ensures PlayTick(s, inp).state.mode == End <==> inp.hit || Physics(s, inp).1.y > ScreenHeight
    ensures PlayTick(s, inp).state.mode == Playing <==> !(inp.hit || Physics(s, inp).1.y > ScreenHeight)
    ensures PlayTick(s, inp).state.score == s.score <==> LastPassed(s.obstacles, Physics(s, inp).1.x).None?
  {
  }

  /**
    What a play tick requests: a music request exactly when B was pressed,
    never a quit, at most three effects, and a Hit sound always before a
    GameOver sound in the same tick.
  */
  lemma PlayEffects(s: State, inp: Input)
    requires PassDrawOk(s, inp)
    ensures (MusicOn in PlayTick(s, inp).effects || MusicOff in PlayTick(s, inp).effects) <==> inp.key == Some(KeyB)
    ensures QuitRequested !in PlayTick(s, inp).effects
    ensures |PlayTick(s, inp).effects| <= 3
    ensures var e := PlayTick(s, inp).effects;
      PlaySound(Hit) in e && PlaySound(GameOver) in e ==>
        exists i, j :: 0 <= i < j < |e| && e[i] == PlaySound(Hit) && e[j] == PlaySound(GameOver)
  {
    var o := PlayTick(s, inp);
    var audio := o.state.audioEnabled;
    var flapFx := if inp.key == Some(KeySpace) then SoundIf(s.audioEnabled, Flap) else [];
    var musicFx := if inp.key == Some(KeyB) then [SetMusic(o.state.musicEnabled)] else [];
    var hitFx := if inp.hit then SoundIf(audio, Hit) else [];
    var fallFx := if Physics(s, inp).1.y > ScreenHeight then SoundIf(audio, GameOver) else [];
    assert o.effects == flapFx + musicFx + hitFx + fallFx;
    assert |flapFx + musicFx| <= 1;
    if PlaySound(Hit) in o.effects && PlaySound(GameOver) in o.effects {
      var pre := flapFx + musicFx;
      assert hitFx == [PlaySound(Hit)] && fallFx == [PlaySound(GameOver)];
      assert o.effects[|pre|] == PlaySound(Hit) && o.effects[|pre| + 1] == PlaySound(GameOver);
    }
  }

  /** Where each sound of a concatenated effect list comes from. */
  lemma SoundsIn(a: seq<Effect>, b: seq<Effect>, c: seq<Effect>, d: seq<Effect>)
    ensures forall x :: PlaySound(x) in a + b + c + d <==> PlaySound(x) in a || PlaySound(x) in b || PlaySound(x) in c || PlaySound(x) in d
  {
  }

  /** The Hit and GameOver sounds are requested exactly when their event happens while audio is on. */
  lemma PlaySounds(s: State, inp: Input)
    requires s.mode == Playing && PassDrawOk(s, inp)
    ensures PlaySound(Hit) in PlayTick(s, inp).effects <==> inp.hit && PlayTick(s, inp).state.audioEnabled
    ensures PlaySound(GameOver) in PlayTick(s, inp).effects <==> Physics(s, inp).1.y > ScreenHeight && PlayTick(s, inp).state.audioEnabled
    ensures PlaySound(Flap) in PlayTick(s, inp).effects <==> inp.key == Some(KeySpace) && s.audioEnabled
  {
    var o := PlayTick(s, inp);
    var audio := o.state.audioEnabled;
    var flapFx := if inp.key == Some(KeySpace) then SoundIf(s.audioEnabled, Flap) else [];
    var musicFx := if inp.key == Some(KeyB) then [SetMusic(o.state.musicEnabled)] else [];
    var hitFx := if inp.hit then SoundIf(audio, Hit) else [];
    var fallFx := if Physics(s, inp).1.y > ScreenHeight then SoundIf(audio, GameOver) else [];
    assert o.effects == flapFx + musicFx + hitFx + fallFx;
    assert audio == (if inp.key == Some(KeyM) then !s.audioEnabled else s.audioEnabled);
    SoundsIn(flapFx, musicFx, hitFx, fallFx);
  }

  /**
    The frame-time rule: below the 75 ms threshold the player stays put and
    the time accumulates; above it the player takes the physics step and
    the accumulator restarts from zero.
  */
  lemma FrameStep(s: State, inp: Input)
    requires PassDrawOk(s, inp)
    ensures s.frameTime + inp.elapsedMs <= FrameDuration ==>
      PlayTick(s, inp).state.player == s.player && PlayTick(s, inp).state.frameTime == s.frameTime + inp.elapsedMs
    ensures s.frameTime + inp.elapsedMs > FrameDuration ==>
      PlayTick(s, inp).state.player == inp.moved && PlayTick(s, inp).state.frameTime == 0
  {
  }

  /** Whether a menu or end-screen tick restarts the game: a click on Play / Play Again, or key P. */
  predicate RestartRequested(s: State, inp: Input, screen: Screen)
  {
    var a := ScreenClick(s, inp, screen);
    inp.key == Some(KeyP) || a == Some(Play) || a == Some(Restart)
  }

  /**
    On the menu and end screens the mode changes only to Playing, and
    exactly when a restart was requested: once ended, a game stays ended
    until the player restarts it.
  */
  lemma ScreenModeIff(s: State, inp: Input, screen: Screen)
    requires RestartDraws(inp.clickDraws) && RestartDraws(inp.keyDraws)
    ensures ScreenTick(s, inp, screen).state.mode == (if RestartRequested(s, inp, screen) then Playing else s.mode)
  {
  }

  /** A menu showing freshly built, unhovered buttons for its current flags. */
  predicate MenuShown(s: State)
  {
    s.mode == Menu && s.buttons == MenuButtons(s.audioEnabled, s.musicEnabled)
  }

  /** The input of a tick where the player presses `key` and does not click. */
  function KeyOnly(base: Input, key: Key): Input
  {
    base.(key := Some(key), leftClick := false)
  }

  /** Pressing M twice on the menu restores the audio flag and the whole state, and requests nothing. */
  lemma MenuAudioToggleTwice(s: State, inp1: Input, inp2: Input)
    requires MenuShown(s) && InputOk(s, inp1) && InputOk(s, inp2)
    ensures MenuShown(Tick(s, KeyOnly(inp1, KeyM)).state)
    ensures Tick(s, KeyOnly(inp1, KeyM)).state.audioEnabled == !s.audioEnabled
    ensures Tick(Tick(s, KeyOnly(inp1, KeyM)).state, KeyOnly(inp2, KeyM)).state == s
    ensures Tick(s, KeyOnly(inp1, KeyM)).effects == []
  {
  }

  /** Pressing B twice on the menu restores the music flag and the state, requesting the flipped setting and then the original one. */
  lemma MenuMusicToggleTwice(s: State, inp1: Input, inp2: Input)
    requires MenuShown(s) && InputOk(s, inp1) && InputOk(s, inp2)
    ensures Tick(s, KeyOnly(inp1, KeyB)).state.musicEnabled == !s.musicEnabled
    ensures MenuShown(Tick(s, KeyOnly(inp1, KeyB)).state)
    ensures Tick(Tick(s, KeyOnly(inp1, KeyB)).state, KeyOnly(inp2, KeyB)).state == s
    ensures Tick(s, KeyOnly(inp1, KeyB)).effects == [SetMusic(!s.musicEnabled)]
    ensures Tick(Tick(s, KeyOnly(inp1, KeyB)).state, KeyOnly(inp2, KeyB)).effects == [SetMusic(s.musicEnabled)]
  {
  }

  /** During play M flips only the audio flag; two presses restore it. */
  lemma PlayToggleTwice(s: State, inp1: Input, inp2: Input)
    requires s.mode == Playing && PassDrawOk(s, KeyOnly(inp1, KeyM))
    requires PassDrawOk(PlayTick(s, KeyOnly(inp1, KeyM)).state, KeyOnly(inp2, KeyM))
    ensures PlayTick(PlayTick(s, KeyOnly(inp1, KeyM)).state, KeyOnly(inp2, KeyM)).state.audioEnabled == s.audioEnabled
    ensures PlayTick(s, KeyOnly(inp1, KeyM)).state.audioEnabled != s.audioEnabled
    ensures PlayTick(s, KeyOnly(inp1, KeyM)).state.musicEnabled == s.musicEnabled
  {
  }

  /** During play B flips only the music flag and requests the new setting; two presses restore it. */
  lemma PlayMusicToggleTwice(s: State, inp1: Input, inp2: Input)
    requires s.mode == Playing && PassDrawOk(s, KeyOnly(inp1, KeyB))
    requires PassDrawOk(PlayTick(s, KeyOnly(inp1, KeyB)).state, KeyOnly(inp2, KeyB))
    ensures PlayTick(PlayTick(s, KeyOnly(inp1, KeyB)).state, KeyOnly(inp2, KeyB)).state.musicEnabled == s.musicEnabled
    ensures PlayTick(s, KeyOnly(inp1, KeyB)).state.musicEnabled != s.musicEnabled
    ensures PlayTick(s, KeyOnly(inp1, KeyB)).state.audioEnabled == s.audioEnabled
    ensures SetMusic(!s.musicEnabled) in PlayTick(s, KeyOnly(inp1, KeyB)).effects
  {
    var o := PlayTick(s, KeyOnly(inp1, KeyB));
    assert o.effects[0] == SetMusic(!s.musicEnabled);
  }

  /**
    `restart` forgets everything but the flags: two states with the same
    flags restart to the same state, so restarting twice is the same as
    restarting once with the second draws.
  */
  lemma RestartForgets(s: State, t: State, d1: seq<int>, d2: seq<int>)
    requires RestartDraws(d1) && RestartDraws(d2)
    requires s.audioEnabled == t.audioEnabled && s.musicEnabled == t.musicEnabled
    ensures RestartGame(s, d2).state == RestartGame(t, d2).state
    ensures RestartGame(RestartGame(s, d1).state, d2) == RestartGame(s, d2)
  {
  }

  /**
    A concrete run: just after a restart the player steps to column 81,
    past the obstacle at 80. The score becomes 1 and that obstacle moves to
    column 170 = 140 + 30 with gap size 19, its centre within 33 rows of
    the third obstacle's.
  */
  lemma FirstPassScenario(s: State, d: seq<int>, inp: Input)
    requires RestartDraws(d)
    requires inp.elapsedMs > FrameDuration && inp.moved == Player(81, 26) && !inp.hit
    requires PassDrawOk(RestartGame(s, d).state, inp)
    ensures PlayTick(RestartGame(s, d).state, inp).state.score == 1
    ensures PlayTick(RestartGame(s, d).state, inp).state.obstacles[0].x == 170
    ensures PlayTick(RestartGame(s, d).state, inp).state.obstacles[0].size == 19
    ensures d[2] - MaxDiff <= PlayTick(RestartGame(s, d).state, inp).state.obstacles[0].gapY < d[2] + MaxDiff
    ensures PlayTick(RestartGame(s, d).state, inp).state.obstacles[1..] == RestartGame(s, d).state.obstacles[1..]
    ensures PlayTick(RestartGame(s, d).state, inp).state.mode == Playing
  {
    var r := RestartGame(s, d).state;
    assert LastPassed(r.obstacles, 81) == Some(0);
    assert MaxX(r.obstacles) == 140;
  }

  /**
    On the menu, clicking Play and pressing M in the same tick starts the
    game but leaves the MENU buttons in the state; the end screen later
    keeps any non-empty button list, so it shows the menu buttons.
  */
  lemma MenuButtonsSurviveIntoPlay(s: State, inp: Input)
    requires s.mode == Menu && s.buttons == [] && InputOk(s, inp)
    requires inp.leftClick && inp.mouseX == 35 && inp.mouseY == 16 && inp.key == Some(KeyM)
    ensures Tick(s, inp).state.mode == Playing
    ensures Tick(s, inp).state.buttons == MenuButtons(!s.audioEnabled, s.musicEnabled)
  {
    var bs := Hover(MenuButtons(s.audioEnabled, s.musicEnabled), 35, 16);
    assert Contains(bs[0], 35, 16);
    assert FirstContaining(bs, 35, 16) == Some(0);
  }

  /** An end-screen tick without a click or key never replaces a non-empty button list. */
  lemma EndKeepsButtons(s: State, inp: Input)
    requires s.mode == End && |s.buttons| > 0 && InputOk(s, inp)
    requires !inp.leftClick && inp.key == None
    ensures Tick(s, inp).state.buttons == Hover(s.buttons, inp.mouseX, inp.mouseY)
    ensures Tick(s, inp).state.mode == End
  {
  }

  /** The first end-screen tick after a game ends builds the end layout (Play Again first), not the menu's. */
  lemma EndTickBuildsEndButtons(s: State, inp: Input)
    requires s.mode == End && s.buttons == [] && InputOk(s, inp)
    requires !inp.leftClick && inp.key == None
    ensures Tick(s, inp).state.buttons == Hover(EndButtons(s.audioEnabled, s.musicEnabled), inp.mouseX, inp.mouseY)
    ensures Tick(s, inp).state.buttons[0].action == Restart
    ensures Tick(s, inp).effects == []
  {
  }
}
